=== FILE: README.md ===
# Wavee, modelled in Dafny

Wavee is an Android view that draws a circular progress indicator: a circle
filled with water up to the progress level, an animated two-wave pattern on the
water's surface, a progress arc around the circle and a centred "p%" label.
This project models the state and geometry logic of the `Wavee` class without
its Android plumbing:

- the widget state is an immutable record (`Wavee.WidgetState`);
- every public setter is a pure function returning the new state, whether it
  invalidated the view and whether it rebuilt the wave tile (`Wavee.Update`);
- measurement is integer arithmetic on (mode, size) specs (`Measure`);
- the wave tile is the list of vertical strokes its two drawing loops emit,
  with the sample of the height array each stroke reads (`WaveTile`);
- a frame is the ordered list of canvas commands `onDraw` issues (`Render`);
- the animation controls are a small phase machine (`Animation`), and the
  whole life of a widget is a sequence of events (`Lifecycle`).

Colours are Android's packed 32-bit ARGB values, unpacked into channels
(`Colors`). Kotlin `Float` ratios are modelled as exact `real`s. The label is
Kotlin's decimal rendering of an `Int` (`Decimal`).

Files: `outcomes.dfy` (Option, Result, the exceptions), `colors.dfy`,
`decimal.dfy`, `measure.dfy`, `wavetile.dfy`, `animation.dfy`, `wavee.dfy`
(state, construction, setters, layout, animation controls), `render.dfy`,
`lifecycle.dfy`.

## Behaviour worth knowing

The model follows the code in each case.

- Progress is not clamped to [0, 100]. The demo app drives it to 101, which
  gives water level 1.01, a 363.6-degree arc and the label "101%".
- Only construction caps the amplitude, at 0.1, and it sets no lower bound.
  `setAmplitudeRatio(n)` stores n / 1000 without any cap.
- There is no tile cache. `bitmapBuffer` is a `val` that is always null, so
  every call of `updateWaveShader` with positive measured bounds rebuilds the
  tile. Rebuilding from the same bounds and colour gives the same tile, so the
  update is idempotent.
- Without a shader, `onDraw` draws nothing at all: no background, no arc and
  no label.
- The `centerTitleColor` and `centerTitleSize` setters do not invalidate.
- The `centerTitle` getter always returns "p%". The title attribute and any
  assignment to the property are stored and never read.
- `waterLevelRatio` has a public setter, so a host can move the water level
  away from `progress / 100`. Only that setter can do so.
- `startAnimation` outside the editor preview resets the wave shift to the
  animator's start value 0.0 at once, through the setter, so it redraws
  unless the shift was already 0. Reattaching a detached view therefore
  starts the wave from the left again.
- `endAnimation` on a started set jumps the wave shift to the animator's end
  value 1.0 through the setter, so it redraws unless the shift was already 1.
  `cancelAnimation` leaves the shift where it was.
- The wave-shift animator never sets a repeat mode, so it restarts each cycle
  instead of reversing.
- Drawing sets the border paint's alpha to 50 and then to 255. The
  `borderColor` getter therefore reports alpha 255 after any frame drawn with
  a shader. Without a shader the drawing block that sets it is skipped.
- The arc rectangle is `lateinit` and only `onSizeChanged` assigns it. A
  frame drawn with a shader before that throws, which is modelled as
  `Err(UninitializedArcRect)`. The rectangle is inset by the border width
  current at the size change. A later `borderWidth` change does not move it.
- The unconstrained measure mode falls back to `mCanvasWidth` and
  `mCanvasHeight`, which are never assigned. An unconstrained width therefore
  measures 0 and an unconstrained height 2. A pass with both specs
  unconstrained gives side 0; with only the height unconstrained the side is
  the smaller of the width size and 2.

## Model

| member | source | states |
|---|---|---|
| Colors.Pack | wavee/src/main/java/sk/lukasanda/wavee/Wavee.kt:420-424 | packing four channels into a colour and reading them back with alpha/red/green/blue returns the same channels |
| Colors.PackUnpack | wavee/src/main/java/sk/lukasanda/wavee/Wavee.kt:420-424 | splitting any packed colour into channels and packing them again returns the same colour |
| Colors.Round | wavee/src/main/java/sk/lukasanda/wavee/Wavee.kt:420 | Math.round returns the integer within half a unit of its argument, rounding halves up |
| Colors.AdjustAlpha | wavee/src/main/java/sk/lukasanda/wavee/Wavee.kt:419-425 | adjustAlpha keeps red, green and blue; the new alpha is round(alpha * factor) and is never above the old one |
| Colors.AdjustAlphaBounds | wavee/src/main/java/sk/lukasanda/wavee/Wavee.kt:411-418 | at the ends of the documented factor range, factor 1 leaves the colour unchanged and factor 0 makes it fully transparent |
| Decimal.NatToDecimal | wavee/src/main/java/sk/lukasanda/wavee/Wavee.kt:28 | the label's digits are non-empty, all decimal digits, with no leading zero: "0" is the only rendering that starts with '0' |
| Decimal.IntToDecimal | wavee/src/main/java/sk/lukasanda/wavee/Wavee.kt:28 | the rendering of an Int starts with '-' exactly for negative values, followed by at least one digit; the digits after the optional sign have no leading zero |
| Decimal.IntToDecimalRoundTrip | wavee/src/main/java/sk/lukasanda/wavee/Wavee.kt:28 | parsing the decimal rendering of any integer gives that integer back |
| Decimal.IntToDecimalInjective | wavee/src/main/java/sk/lukasanda/wavee/Wavee.kt:28 | two integers render to the same text exactly when they are equal |
| Measure.MeasureWidth | wavee/src/main/java/sk/lukasanda/wavee/Wavee.kt:302-318 | EXACTLY and AT_MOST resolve to the spec size; UNSPECIFIED resolves to the intrinsic width |
| Measure.MeasureHeight | wavee/src/main/java/sk/lukasanda/wavee/Wavee.kt:320-336 | resolved like the width, from the intrinsic height when unconstrained, then always padded by 2 |
| Measure.SquareSide | wavee/src/main/java/sk/lukasanda/wavee/Wavee.kt:293-300 | the side is the smaller of the resolved width and the padded height: at most each of them and equal to one |
| Measure.SquareSideWithZeroIntrinsics | wavee/src/main/java/sk/lukasanda/wavee/Wavee.kt:293-336 | with the never-assigned intrinsic sizes at 0: an unconstrained width gives side 0; an unconstrained height resolves to the padding 2, so a constrained width then gives min(width size, 2); two constrained specs give min(width size, height size + 2) |
| Measure.ExactlyAndAtMostAgree | wavee/src/main/java/sk/lukasanda/wavee/Wavee.kt:302-336 | replacing EXACTLY by AT_MOST with the same size, in either spec, never changes the measured side |
| WaveTile.GenerateShape | wavee/src/main/java/sk/lukasanda/wavee/Wavee.kt:263-279 | a tile has 2 * (width + 1) strokes; both passes cover columns 0..width in order; the first is dimmed by adjustAlpha(colour, 0.3) and reads its own column; the second is at full colour and reads a sample inside the array of width + 1 heights |
| WaveTile.BuildTile | wavee/src/main/java/sk/lukasanda/wavee/Wavee.kt:263-280 | the two `for beginX in 0 until endX` loops produce exactly the declarative tile |
| WaveTile.SecondPassReadsEverySample | wavee/src/main/java/sk/lukasanda/wavee/Wavee.kt:277-279 | every sample s of waveY is read by the second pass, at column (s - width/4) mod (width + 1) |
| WaveTile.SecondWaveSampleWrapsOnce | wavee/src/main/java/sk/lukasanda/wavee/Wavee.kt:277-279 | the second pass's shifted index wraps around the sample array at most once: it is x + width/4, less width + 1 when that runs past the end |
| WaveTile.SecondPassReadsEachSampleOnce | wavee/src/main/java/sk/lukasanda/wavee/Wavee.kt:277-279 | two columns of the second pass read the same sample only if they are the same column, so the shifted wave is a rotation of the first |
| Animation.Initial | wavee/src/main/java/sk/lukasanda/wavee/Wavee.kt:79-87 | the animator starts stopped, with a duration of 1000 ms |
| Animation.Start | wavee/src/main/java/sk/lukasanda/wavee/Wavee.kt:360-364 | start changes nothing in edit mode; otherwise the set runs; the duration is kept |
| Animation.Stop | wavee/src/main/java/sk/lukasanda/wavee/Wavee.kt:366-372 | end and cancel both leave the set idle and keep its duration |
| Animation.Pause | wavee/src/main/java/sk/lukasanda/wavee/Wavee.kt:374-379 | the set is paused afterwards exactly when it already was, or when pausing is supported and it was running; otherwise nothing changes |
| Animation.Resume | wavee/src/main/java/sk/lukasanda/wavee/Wavee.kt:381-386 | the set runs afterwards exactly when it already did, or when pausing is supported and it was paused; otherwise nothing changes |
| Animation.SetDuration | wavee/src/main/java/sk/lukasanda/wavee/Wavee.kt:388-395 | a negative duration throws; any other changes only the duration |
| Animation.PauseThenResume | wavee/src/main/java/sk/lukasanda/wavee/Wavee.kt:374-386 | where pausing is supported, pause then resume restores a running set exactly; where it is not, both are no-ops |
| Wavee.Dp2PxRoundsNonNegative | wavee/src/main/java/sk/lukasanda/wavee/Wavee.kt:433-435 | adding one half and truncating rounds a non-negative pixel size half up, as Math.round would |
| Wavee.Dp2Px | wavee/src/main/java/sk/lukasanda/wavee/Wavee.kt:435 | dp * density + 0.5 truncated: never negative for a non-negative size, and within half a pixel of the exact size in the Int range; Dp2PxRoundsNonNegative shows it is Math.round there |
| Wavee.Sp2Px | wavee/src/main/java/sk/lukasanda/wavee/Wavee.kt:433 | the same conversion with the scaled density |
| Wavee.Dp2PxNegativeTruncatesTowardZero | wavee/src/main/java/sk/lukasanda/wavee/Wavee.kt:435 | a negative size is not rounded: -0.7 dp at density 1 gives 0 pixels, where rounding gives -1 |
| Wavee.FloatToInt | wavee/src/main/java/sk/lukasanda/wavee/Wavee.kt:433-435 | the float-to-Int conversion in sp2px/dp2px truncates toward zero: a non-negative value in range goes to its floor, a negative one to its ceiling; values beyond the Int range saturate at its bounds; the sign is never flipped |
| Wavee.CenterTitleEncodesProgress | wavee/src/main/java/sk/lukasanda/wavee/Wavee.kt:27-28 | the label is never empty, ends in '%', parses back to the progress, and two labels are equal exactly when the progress values are |
| Wavee.CenterTitle | wavee/src/main/java/sk/lukasanda/wavee/Wavee.kt:27-28 | the getter is the progress in decimal followed by '%', whatever was assigned: ending in '%', with the optional '-' and then digits without a leading zero before it; CenterTitleEncodesProgress proves it reads back as the progress |
| Wavee.ArcProgress | wavee/src/main/java/sk/lukasanda/wavee/Wavee.kt:75-76 | the arc sweep is 360 degrees times the progress water level p / 100, so between 0 and 360 for progress in 0..100 |
| Wavee.InitialAmplitude | wavee/src/main/java/sk/lukasanda/wavee/Wavee.kt:148-150 | the constructed amplitude is attribute / 1000 when that is at most 0.1 and 0.1 otherwise; there is no lower bound |
| Wavee.Init | wavee/src/main/java/sk/lukasanda/wavee/Wavee.kt:135-171 | construction applies the attributes or their defaults (wave colour #358bef, amplitude 50 -> 0.05, progress 0, background #676767, title colour white, 5 dp border), sets the water level to progress / 100, stores the title-size attribute or 22 sp in pixels and the title attribute as given, keeps the platform it was given, and starts with measured and laid-out sizes 0, pivot level 0, no shader, no arc rectangle and a stopped animator |
| Wavee.TitleAttributeIgnored | wavee/src/main/java/sk/lukasanda/wavee/Wavee.kt:163-168 | whatever title attribute the layout gives, the constructed label is the progress label |
| Wavee.SetWaterLevelRatio | wavee/src/main/java/sk/lukasanda/wavee/Wavee.kt:30-36 | the water level ends at the new value with nothing else changed; it redraws exactly when the value differs |
| Wavee.SetWaveShiftRatio | wavee/src/main/java/sk/lukasanda/wavee/Wavee.kt:37-43 | the shift ends at the new value with nothing else changed; it redraws exactly when the value differs |
| Wavee.RatioSettersIdempotent | wavee/src/main/java/sk/lukasanda/wavee/Wavee.kt:30-43 | setting the water level, the shift or the amplitude a second time to the same value is a no-op without redraw |
| Wavee.SetProgressValue | wavee/src/main/java/sk/lukasanda/wavee/Wavee.kt:114-119 | stores the progress unclamped and water level progress / 100 together; the label becomes "p%" and the arc p * 3.6; it redraws exactly when the water level moves |
| Wavee.ProgressRedrawsOnChange | wavee/src/main/java/sk/lukasanda/wavee/Wavee.kt:114-119 | while the water level follows the progress, setting progress redraws exactly when the value changes, and setting the same value changes nothing |
| Wavee.ProgressUnclamped | wavee/src/main/java/sk/lukasanda/wavee/Wavee.kt:114-119 | progress 101 gives water level 1.01, a 363.6-degree arc and the label "101%" |
| Wavee.SetAmplitudeRatio | wavee/src/main/java/sk/lukasanda/wavee/Wavee.kt:344-349 | the amplitude becomes n / 1000 with no cap; it redraws exactly when it changes; the shader is untouched |
| Wavee.AmplitudeSetterUncapped | wavee/src/main/java/sk/lukasanda/wavee/Wavee.kt:344-349 | the setter turns 1000 into 1.0 where construction caps it to 0.1, and 20 into 0.02 |
| Wavee.UpdateWaveShader | wavee/src/main/java/sk/lukasanda/wavee/Wavee.kt:243-291 | with positive measured bounds a new tile of those bounds in the wave colour is built and the rescale pivot becomes half the height; otherwise nothing changes; no other field ever changes |
| Wavee.UpdateWaveShaderIdempotent | wavee/src/main/java/sk/lukasanda/wavee/Wavee.kt:243-287 | rebuilding twice gives the same state as rebuilding once |
| Wavee.NeedsNewBitmap | wavee/src/main/java/sk/lukasanda/wavee/Wavee.kt:244 | the guard "buffer is null, or haveBoundsChanged()"; with the buffer the code has, always null, it always holds |
| Wavee.HaveBoundsChanged | wavee/src/main/java/sk/lukasanda/wavee/Wavee.kt:289-291 | whether a buffer's size differs from the measured size; a tile generated from the current measured bounds never counts as changed |
| Wavee.BuiltTileMatchesBounds | wavee/src/main/java/sk/lukasanda/wavee/Wavee.kt:243-291 | a tile just built has the measured bounds, so haveBoundsChanged reports no change for it; after a measure pass it reports a change exactly when the new side differs |
| Wavee.SetWaveColor | wavee/src/main/java/sk/lukasanda/wavee/Wavee.kt:91-97 | stores the colour, updates the shader and redraws; the tile is rebuilt exactly when the bounds are positive, and its first stroke then uses the colour dimmed by 0.3 |
| Wavee.SetBorderWidth | wavee/src/main/java/sk/lukasanda/wavee/Wavee.kt:99-104 | stores the stroke width and redraws, without moving the arc rectangle or touching the tile |
| Wavee.SetBorderColor | wavee/src/main/java/sk/lukasanda/wavee/Wavee.kt:106-112 | stores the colour so that the getter returns it, updates the shader and redraws |
| Wavee.SetCenterTitleColor | wavee/src/main/java/sk/lukasanda/wavee/Wavee.kt:121-125 | stores the title colour without redrawing |
| Wavee.SetCenterTitleSize | wavee/src/main/java/sk/lukasanda/wavee/Wavee.kt:127-131 | stores sp2px of the size without redrawing |
| Wavee.SetCenterTitle | wavee/src/main/java/sk/lukasanda/wavee/Wavee.kt:27-28 | assigning the title stores the backing field and changes nothing else; the label is unchanged and nothing redraws |
| Wavee.SetCenterTitleStrokeWidth | wavee/src/main/java/sk/lukasanda/wavee/Wavee.kt:352-354 | always throws, because the stroke paint is never created |
| Wavee.SetCenterTitleStrokeColor | wavee/src/main/java/sk/lukasanda/wavee/Wavee.kt:356-358 | always throws, because the stroke paint is never created |
| Wavee.OnMeasure | wavee/src/main/java/sk/lukasanda/wavee/Wavee.kt:293-300 | the measured dimension is square and equals the smaller of the resolved width and the padded height; nothing else changes |
| Wavee.OnSizeChanged | wavee/src/main/java/sk/lukasanda/wavee/Wavee.kt:232-241 | records the size; the arc rectangle is the view inset by the current border width on every side; the result is the shader update of that state, so the tile is rebuilt when the measured bounds are positive and nothing else changes otherwise |
| Wavee.StartAnimation | wavee/src/main/java/sk/lukasanda/wavee/Wavee.kt:360-364 | in edit mode nothing changes; otherwise the set runs and its animator assigns the start value 0.0 through the shift setter at once, redrawing exactly when the shift differed; no other field changes and the duration is kept |
| Wavee.EndAnimation | wavee/src/main/java/sk/lukasanda/wavee/Wavee.kt:366-368 | the set stops; a started set first assigns the end value 1.0 to the wave shift through its setter, redrawing exactly when the shift differed; an idle set changes nothing; no other field changes |
| Wavee.CancelAnimation | wavee/src/main/java/sk/lukasanda/wavee/Wavee.kt:370-372 | the set stops where it is: only the animator changes, and the wave shift keeps its value |
| Wavee.PauseAnimation | wavee/src/main/java/sk/lukasanda/wavee/Wavee.kt:374-379 | the state with the animator paused as the platform allows: a running set pauses when the platform supports it, and without support nothing changes; only the animator changes |
| Wavee.ResumeAnimation | wavee/src/main/java/sk/lukasanda/wavee/Wavee.kt:381-386 | the state with the animator resumed as the platform allows: a paused set runs again when the platform supports it; a set that is not paused, or a platform without support, changes nothing |
| Wavee.SetAnimDuration | wavee/src/main/java/sk/lukasanda/wavee/Wavee.kt:393-395 | a negative duration throws the negative-duration error, and only then; otherwise only the duration changes |
| Wavee.OnAttachedToWindow | wavee/src/main/java/sk/lukasanda/wavee/Wavee.kt:401-404 | attaching the view is startAnimation, including the reset of the shift to 0.0 |
| Wavee.OnDetachedFromWindow | wavee/src/main/java/sk/lukasanda/wavee/Wavee.kt:406-409 | detaching the view cancels the animation |
| Wavee.AnimationTick | wavee/src/main/java/sk/lukasanda/wavee/Wavee.kt:79-86 | a running animator assigns the shift through its setter; any other phase leaves the widget unchanged, without redraw |
| Wavee.DetachThenReattach | wavee/src/main/java/sk/lukasanda/wavee/Wavee.kt:401-409 | after detaching, a tick changes nothing; attaching again outside edit mode runs the animation from shift 0.0 and ticks move the shift again; in edit mode attaching changes nothing |
| Render.OnDraw | wavee/src/main/java/sk/lukasanda/wavee/Wavee.kt:173-230 | without a shader no command is drawn; before onSizeChanged it throws; otherwise it draws exactly: background circle of radius width/2 - 21 - border, 360-degree track at alpha 50, the progress arc from -90 degrees at alpha 255, the label, and the wave circle at alpha 200; the border colour's alpha is left at 255 |
| Render.Radius | wavee/src/main/java/sk/lukasanda/wavee/Wavee.kt:204 | the circles' radius is half the width less a 21-pixel margin and the border width, so strictly inside the half width for a non-negative border |
| Render.WaveTransform | wavee/src/main/java/sk/lukasanda/wavee/Wavee.kt:190-194 | the shader matrix scales by amplitude / 0.1 about the pivot level, shifts by ratio * width and by (0.5 - water level) * height; scale 1 exactly at the default amplitude, no offsets exactly at shift 0 and level 0.5 (or a zero size) |
| Render.RedrawIsStable | wavee/src/main/java/sk/lukasanda/wavee/Wavee.kt:206-216 | the paint alpha a frame leaves behind does not affect the next frame, which draws the same commands |
| Render.AmplitudeRescalesWithoutRebuild | wavee/src/main/java/sk/lukasanda/wavee/Wavee.kt:188-197 | after an amplitude change the next frame shades with the same tile, scaled vertically by the new ratio over 0.1 |
| Render.ProgressPositionsWave | wavee/src/main/java/sk/lukasanda/wavee/Wavee.kt:190-214 | after setting progress p, the arc sweeps p * 3.6 and the tile moves by (0.5 - p/100) times the height, which is 0 at p = 50 |
| Lifecycle.InitEstablishesInvariant | wavee/src/main/java/sk/lukasanda/wavee/Wavee.kt:135-171 | a constructed widget satisfies the state invariant |
| Lifecycle.RunKeepsInvariant | wavee/src/main/java/sk/lukasanda/wavee/Wavee.kt:243-287 | after any sequence of calls the intrinsic sizes are still 0, the duration is not negative, and any shader holds a well-formed tile whose pivot is half its height |
| Lifecycle.RunKeepsInSync | wavee/src/main/java/sk/lukasanda/wavee/Wavee.kt:114-119 | if no call uses the public water-level setter, the water level stays progress / 100 |
| Lifecycle.WaterLevelSetterBreaksSync | wavee/src/main/java/sk/lukasanda/wavee/Wavee.kt:30-36 | a constructed widget starts in sync, and one call of the public water-level setter can break it |
| Lifecycle.ZeroViewportDrawsNothing | wavee/src/main/java/sk/lukasanda/wavee/Wavee.kt:180-182 | a widget never measured to a positive size never gets a shader, and every frame it draws is empty |
| Lifecycle.TicksAfterDetachChangeNothing | wavee/src/main/java/sk/lukasanda/wavee/Wavee.kt:406-409 | after detaching, no sequence of animation ticks changes the widget |

## Left out

- Wave heights: the sine, π and the float arithmetic that compute `waveY` are
  not modelled. A stroke records which sample of `waveY` it reads, not the
  sample's value.
- Shader matrix: its pixel effect and the Canvas, Paint and BitmapShader
  internals are graphics-library behaviour. A frame records the transform's
  parameters and the tile.
- Render.OnDraw: the label command carries the text, colour and size but not
  its position, because that depends on `measureText`, ascent and descent.
- Float precision: every Kotlin `Float` and `Double` value is an exact `real`.
  This covers p / 100, p * 3.6, n / 1000, the 0.1 cap, 0.3 * alpha and
  width / 4.
- Colors.AdjustAlpha: rounds the exact product, where the source rounds a
  float product. The two can differ by one when the float product falls just
  below a half.
- Wavee.FloatToInt: NaN is not modelled, since a real cannot be NaN.
- Attribute parsing: `obtainStyledAttributes` and `TypedArray` are replaced
  by an `Attributes` value, with None for each attribute the layout leaves
  unset.
- Density: dp and sp conversion take the display densities as plain reals
  in `Platform`.
- Animation timing: when ticks fire, the interpolator and the repeat
  behaviour are platform scheduling. The values the animator assigns arrive
  as `Tick` events.
- Redraw scheduling: coalescing of `invalidate()` and the platform's choice
  of when to call onMeasure, onSizeChanged and onDraw are not modelled. Each
  is an event the host may send in any order.
- Measure specs: packing a spec into one `Int` is done by
  `View.MeasureSpec`, which is not part of this model. Specs are
  (mode, size) pairs.
- Dead state: `mCanvasSize` is assigned in `onDraw` and `onSizeChanged` but
  never read. The old-size arguments of `onSizeChanged` are unused.
  `bitmapBuffer?.recycle()` acts on null. All three are left out.
- Paint bookkeeping: the wave paint's shader assignment and the shader
  matrix object are left out. A frame carries the tile and transform itself.
- Stroke width: how Paint treats a negative stroke width is graphics-library
  behaviour. The model stores the value as given.
- Demo app: `MainActivity` only wires a SeekBar and a ValueAnimator to
  `progressValue`. Its calls are `ProgressSet` events.

=== FILE: animation.dfy ===
/**
 * The control surface of the wave-shift animator set: which phase the
 * animation is in after start, end, cancel, pause and resume, and its
 * duration. How the platform schedules ticks is not modelled; the values it
 * assigns reach the widget as ticks (see Wavee.AnimationTick).
 */
module Animation {
  import opened Outcomes

  /** Duration of one wave-shift cycle until setAnimDuration changes it, in milliseconds. */
  const DefaultDuration: int := 1000

  /** A Kotlin Long, the type of a duration. */
  type Int64 = n: int | -0x8000_0000_0000_0000 <= n < 0x8000_0000_0000_0000

  datatype Phase = Idle | Running | Paused

  datatype Animator = Animator(phase: Phase, duration: Int64)

  /** The animator as initAnimation leaves it: stopped, with the default duration. */
  function Initial(): (a: Animator)
    ensures a.phase == Idle && a.duration == DefaultDuration
  {
    Animator(Idle, DefaultDuration)
  }

  /** startAnimation: ignored in the layout editor's preview, otherwise (re)starts the set. */
  function Start(a: Animator, editMode: bool): (r: Animator)
    ensures editMode ==> r == a
    ensures !editMode ==> r.phase == Running
    ensures r.duration == a.duration
  {
    if editMode then a else a.(phase := Running)
  }

  /**
   * The value the wave-shift animator runs from. Starting the set assigns it
   * at once, since the animator has no start delay (see Wavee.StartAnimation).
   */
  const StartValue: real := 0.0

  /**
   * The value the wave-shift animator runs to. Ending a started set jumps the
   * animator to it (see Wavee.EndAnimation); cancelling leaves the current
   * value in place.
   */
  const EndValue: real := 1.0

  /** Whether the set has been started and not yet ended or cancelled. */
  predicate Started(a: Animator)
  {
    a.phase != Idle
  }

  /**
   * endAnimation and cancelAnimation: both stop the set; what end does to the
   * wave shift on the way out is in Wavee.EndAnimation.
   */
  function Stop(a: Animator): (r: Animator)
    ensures r.phase == Idle && r.duration == a.duration
  {
    a.(phase := Idle)
  }

  /** pauseAnimation: only where the platform supports pausing, and only a running set pauses. */
  function Pause(a: Animator, canPause: bool): (r: Animator)
    ensures r.duration == a.duration
    ensures r.phase == Paused <==> a.phase == Paused || (canPause && a.phase == Running)
    ensures !canPause || a.phase != Running ==> r == a
  {
    if canPause && a.phase == Running then a.(phase := Paused) else a
  }

  /** resumeAnimation: only where the platform supports pausing, and only a paused set resumes. */
  function Resume(a: Animator, canPause: bool): (r: Animator)
    ensures r.duration == a.duration
    ensures r.phase == Running <==> a.phase == Running || (canPause && a.phase == Paused)
    ensures !canPause || a.phase != Paused ==> r == a
  {
    if canPause && a.phase == Paused then a.(phase := Running) else a
  }

  /** setAnimDuration: changes the duration only; the animator throws on a negative one. */
  function SetDuration(a: Animator, duration: Int64): (r: Result<Animator>)
    ensures duration < 0 <==> r == Err(NegativeDuration)
    ensures r.Ok? ==> r.value.duration == duration && r.value.phase == a.phase
  {
    if duration < 0 then Err(NegativeDuration) else Ok(a.(duration := duration))
  }

  /** Where pausing is supported, pausing a running set and resuming it restores it exactly. */
  lemma PauseThenResume(a: Animator)
    requires a.phase == Running
    ensures Resume(Pause(a, true), true) == a
    ensures Pause(a, false) == a && Resume(Pause(a, false), false) == a
  {
  }
}

=== FILE: colors.dfy ===
/** Android's packed ARGB colours, Paint.setAlpha and the widget's adjustAlpha helper. */
module Colors {

  /** A colour as the 32-bit pattern Android packs it in (a Kotlin Int), read as unsigned. */
  type ColorInt = c: int | 0 <= c < 0x1_0000_0000

  /** One 8-bit channel of a colour. */
  type Channel = c: int | 0 <= c < 0x100

  /** A colour split into its four channels. */
  datatype Color = Color(alpha: Channel, red: Channel, green: Channel, blue: Channel)

  /** Color.alpha, Color.red, Color.green and Color.blue: the bytes of the packed colour, alpha on top. */
  function Unpack(c: ColorInt): Color {
    Color(c / 0x100_0000, (c / 0x1_0000) % 0x100, (c / 0x100) % 0x100, c % 0x100)
  }

  /** Color.argb: packs the channels, alpha in the top byte; unpacking gives them back. */
  function Pack(c: Color): (p: ColorInt)
    ensures Unpack(p) == c
  {
    var p := c.alpha * 0x100_0000 + c.red * 0x1_0000 + c.green * 0x100 + c.blue;
    assert p / 0x100 == c.alpha * 0x1_0000 + c.red * 0x100 + c.green;
    assert p / 0x1_0000 == c.alpha * 0x100 + c.red;
    p
  }

  /** Unpacking a packed colour and packing it again gives it back. */
  lemma PackUnpack(p: ColorInt)
    ensures Pack(Unpack(p)) == p
  {
    var q1 := p / 0x100;
    var q2 := q1 / 0x100;
    var q3 := q2 / 0x100;
    assert p == q1 * 0x100 + p % 0x100;
    assert q1 == q2 * 0x100 + q1 % 0x100;
    assert p / 0x1_0000 == q2;
    assert q2 == q3 * 0x100 + q2 % 0x100;
    assert p / 0x100_0000 == q3;
  }

  /** Paint.setAlpha: replaces the alpha channel and keeps red, green and blue. */
  function WithAlpha(c: Color, a: Channel): Color {
    c.(alpha := a)
  }

  /** Math.round on a float: the nearest integer, halves rounded up. */
  function Round(x: real): (n: int)
    ensures x - 0.5 < n as real <= x + 0.5
  {
    (x + 0.5).Floor
  }

  /**
   * adjustAlpha: scales the alpha channel by `factor` (documented as lying
   * between 0 and 1), rounding to the nearest integer, and keeps the colour.
   */
  function AdjustAlpha(c: Color, factor: real): (r: Color)
    requires 0.0 <= factor <= 1.0
    ensures r.red == c.red && r.green == c.green && r.blue == c.blue
    ensures r.alpha == Round(c.alpha as real * factor)
    ensures r.alpha <= c.alpha
  {
    var scaled := c.alpha as real * factor;
    assert scaled <= c.alpha as real;
    Color(Round(scaled), c.red, c.green, c.blue)
  }

  /** With factor 1 the colour is unchanged; with factor 0 it becomes fully transparent. */
  lemma AdjustAlphaBounds(c: Color)
    ensures AdjustAlpha(c, 1.0) == c
    ensures AdjustAlpha(c, 0.0) == c.(alpha := 0)
  {
    assert c.alpha as real * 1.0 == c.alpha as real;
    assert Round(c.alpha as real) == c.alpha;
    assert Round(c.alpha as real * 0.0) == 0;
  }
}

=== FILE: decimal.dfy ===
/**
 * Kotlin's rendering of an Int as decimal text (what the string template
 * "$progressValue%" calls), with a parser that reads it back.
 */
module Decimal {
  import opened Outcomes

  predicate IsDigit(c: char) { '0' <= c <= '9' }

  predicate AllDigits(s: string) { forall i :: 0 <= i < |s| ==> IsDigit(s[i]) }

  function DigitChar(d: nat): (c: char)
    requires d < 10
    ensures IsDigit(c)
  {
    ('0' as int + d) as char
  }

  function DigitValue(c: char): (d: nat)
    requires IsDigit(c)
    ensures d < 10
  {
    c as int - '0' as int
  }

  /** The digits of `n`, most significant first, without leading zeros. */
  function NatToDecimal(n: nat): (s: string)
    ensures |s| > 0 && AllDigits(s)
    ensures s[0] == '0' <==> n == 0
    ensures |s| > 1 ==> s[0] != '0'
    decreases n
  {
    if n < 10 then [DigitChar(n)] else NatToDecimal(n / 10) + [DigitChar(n % 10)]
  }

  /** The number a digit string denotes, read most significant first. */
  function DecimalValue(s: string): nat
    requires AllDigits(s)
    decreases |s|
  {
    if |s| == 0 then 0 else DecimalValue(s[..|s| - 1]) * 10 + DigitValue(s[|s| - 1])
  }

  /** Int.toString: a minus sign for negative values, then the digits of the magnitude. */
  function IntToDecimal(n: int): (s: string)
    ensures |s| > 0
    ensures s[0] == '-' <==> n < 0
    ensures n >= 0 ==> AllDigits(s) && (|s| > 1 ==> s[0] != '0')
    ensures n < 0 ==> |s| > 1 && AllDigits(s[1..]) && s[1] != '0'
  {
    if n < 0 then "-" + NatToDecimal(-n) else NatToDecimal(n)
  }

  /** Reads an optional minus sign followed by at least one digit. */
  function ParseInt(s: string): Option<int> {
    if |s| > 1 && s[0] == '-' && AllDigits(s[1..]) then Some(-(DecimalValue(s[1..]) as int))
    else if |s| > 0 && AllDigits(s) then Some(DecimalValue(s) as int)
    else None
  }

  lemma {:induction false} NatToDecimalRoundTrip(n: nat)
    ensures DecimalValue(NatToDecimal(n)) == n
    decreases n
  {
    if n >= 10 {
      var s := NatToDecimal(n);
      assert s[..|s| - 1] == NatToDecimal(n / 10);
      NatToDecimalRoundTrip(n / 10);
    }
  }

  /** Parsing the rendering of any integer gives that integer back. */
  lemma IntToDecimalRoundTrip(n: int)
    ensures ParseInt(IntToDecimal(n)) == Some(n)
  {
    var s := IntToDecimal(n);
    if n < 0 {
      assert s[1..] == NatToDecimal(-n);
      NatToDecimalRoundTrip(-n);
    } else {
      NatToDecimalRoundTrip(n);
    }
  }

  /** Distinct integers render as distinct text. */
  lemma IntToDecimalInjective(m: int, n: int)
    ensures IntToDecimal(m) == IntToDecimal(n) <==> m == n
  {
    IntToDecimalRoundTrip(m);
    IntToDecimalRoundTrip(n);
  }
}

=== FILE: lifecycle.dfy ===
/**
 * The widget over its life: every call the host or the platform makes is an
 * event, and a run applies events in order, stopping at the first that throws.
 * The lemmas here are the invariants every run keeps.
 */
module Lifecycle {
  import opened Outcomes
  import opened Colors
  import Measure
  import Animation
  import WaveTile
  import opened Wavee
  import Render

  datatype Event =
    | MeasurePass(widthSpec: Measure.MeasureSpec, heightSpec: Measure.MeasureSpec)
    | SizeChange(w: Int32, h: Int32)
    | DrawPass
    | ProgressSet(progress: Int32)
    | WaterLevelSet(ratio: real)
    | WaveShiftSet(ratio: real)
    | AmplitudeSet(amplitude: Int32)
    | WaveColorSet(color: ColorInt)
    | BorderColorSet(color: ColorInt)
    | BorderWidthSet(width: real)
    | TitleColorSet(color: ColorInt)
    | TitleSizeSet(size: real)
    | TitleSet(title: Option<string>)
    | TitleStrokeWidthSet(width: real)
    | TitleStrokeColorSet(color: ColorInt)
    | StartCall
    | EndCall
    | CancelCall
    | PauseCall
    | ResumeCall
    | DurationSet(duration: Animation.Int64)
    | Attach
    | Detach
    | Tick(value: real)

  function Apply(u: Result<Update>): Result<WidgetState> {
    match u
    case Ok(v) => Ok(v.state)
    case Err(f) => Err(f)
  }

  /** The state after one event, or the exception it throws. */
  function Step(s: WidgetState, e: Event): Result<WidgetState> {
    match e
    case MeasurePass(ws, hs) => Ok(OnMeasure(s, ws, hs))
    case SizeChange(w, h) => Ok(OnSizeChanged(s, w, h))
    case DrawPass =>
      (match Render.OnDraw(s)
       case Ok(frame) => Ok(frame.after)
       case Err(f) => Err(f))
    case ProgressSet(p) => Ok(SetProgressValue(s, p).state)
    case WaterLevelSet(r) => Ok(SetWaterLevelRatio(s, r).state)
    case WaveShiftSet(r) => Ok(SetWaveShiftRatio(s, r).state)
    case AmplitudeSet(a) => Ok(SetAmplitudeRatio(s, a).state)
    case WaveColorSet(c) => Ok(SetWaveColor(s, c).state)
    case BorderColorSet(c) => Ok(SetBorderColor(s, c).state)
    case BorderWidthSet(w) => Ok(SetBorderWidth(s, w).state)
    case TitleColorSet(c) => Ok(SetCenterTitleColor(s, c).state)
    case TitleSizeSet(z) => Ok(SetCenterTitleSize(s, z).state)
    case TitleSet(t) => Ok(SetCenterTitle(s, t).state)
    case TitleStrokeWidthSet(w) => Apply(SetCenterTitleStrokeWidth(s, w))
    case TitleStrokeColorSet(c) => Apply(SetCenterTitleStrokeColor(s, c))
    case StartCall => Ok(StartAnimation(s).state)
    case EndCall => Ok(EndAnimation(s).state)
    case CancelCall => Ok(CancelAnimation(s))
    case PauseCall => Ok(PauseAnimation(s))
    case ResumeCall => Ok(ResumeAnimation(s))
    case DurationSet(d) => SetAnimDuration(s, d)
    case Attach => Ok(OnAttachedToWindow(s).state)
    case Detach => Ok(OnDetachedFromWindow(s))
    case Tick(v) => Ok(AnimationTick(s, v).state)
  }

  /** Applies the events in order; the first exception ends the run. */
  function Run(s: WidgetState, events: seq<Event>): Result<WidgetState>
    decreases |events|
  {
    if |events| == 0 then Ok(s)
    else
      match Step(s, events[0])
      case Err(f) => Err(f)
      case Ok(t) => Run(t, events[1..])
  }

  /**
   * What every reachable state satisfies: the intrinsic sizes are still 0, the
   * duration is not negative, and a shader holds a well-formed tile whose
   * rescale pivot is half its height.
   */
  predicate Invariant(s: WidgetState) {
    && s.intrinsicWidth == 0 && s.intrinsicHeight == 0
    && s.animator.duration >= 0
    && (s.shader.Some? ==>
          WaveTile.WellFormed(s.shader.value)
          && s.defaultWaterLevel == s.shader.value.height as real * DefaultWaterLevelRatio)
  }

  lemma InitEstablishesInvariant(attrs: Attributes, platform: Platform)
    ensures Invariant(Init(attrs, platform))
  {
  }

  lemma UpdateWaveShaderKeepsInvariant(s: WidgetState)
    requires Invariant(s)
    ensures Invariant(UpdateWaveShader(s))
  {
    if CanBuildTile(s) {
      WaveTile.GenerateShape(s.measuredWidth, s.measuredHeight, s.waveColor);
    }
  }

  lemma StepKeepsInvariant(s: WidgetState, e: Event)
    requires Invariant(s)
    ensures Step(s, e).Ok? ==> Invariant(Step(s, e).value)
  {
    match e
    case SizeChange(w, h) =>
      var bw := s.borderWidth;
      UpdateWaveShaderKeepsInvariant(s.(width := w, height := h, arcRect := Some(Rect(bw, bw, w as real - bw, h as real - bw))));
    case WaveColorSet(c) =>
      UpdateWaveShaderKeepsInvariant(s.(waveColor := Unpack(c)));
    case BorderColorSet(c) =>
      UpdateWaveShaderKeepsInvariant(s.(borderColor := Unpack(c)));
    case _ =>
  }

  /** Every run from a state satisfying the invariant ends in one that does. */
  lemma {:induction false} RunKeepsInvariant(s: WidgetState, events: seq<Event>)
    requires Invariant(s)
    ensures Run(s, events).Ok? ==> Invariant(Run(s, events).value)
    decreases |events|
  {
    if |events| > 0 {
      StepKeepsInvariant(s, events[0]);
      if Step(s, events[0]).Ok? {
        RunKeepsInvariant(Step(s, events[0]).value, events[1..]);
      }
    }
  }

  /** The water level is the one the progress stands for. */
  predicate InSync(s: WidgetState) { s.waterLevel == WaterLevelFor(s.progress) }

  /**
   * Only the public waterLevelRatio setter can separate water level from
   * progress: a run without it keeps them in sync, so the label, the arc and
   * the water level always describe the same progress.
   */
  lemma {:induction false} RunKeepsInSync(s: WidgetState, events: seq<Event>)
    requires InSync(s)
    requires forall i :: 0 <= i < |events| ==> !events[i].WaterLevelSet?
    ensures Run(s, events).Ok? ==> InSync(Run(s, events).value)
    decreases |events|
  {
    if |events| > 0 && Step(s, events[0]).Ok? {
      var t := Step(s, events[0]).value;
      assert InSync(t) by {
        match events[0]
        case DrawPass =>
        case SizeChange(w, h) =>
        case WaveColorSet(c) =>
        case BorderColorSet(c) =>
        case _ =>
      }
      RunKeepsInSync(t, events[1..]);
    }
  }

  /** A constructed widget starts in sync, and one call of the water-level setter can break it. */
  lemma WaterLevelSetterBreaksSync(attrs: Attributes, platform: Platform, ratio: real)
    requires ratio != WaterLevelFor(Init(attrs, platform).progress)
    ensures InSync(Init(attrs, platform))
    ensures Run(Init(attrs, platform), [WaterLevelSet(ratio)]).Ok?
    ensures !InSync(Run(Init(attrs, platform), [WaterLevelSet(ratio)]).value)
  {
  }

  /** A measure pass whose square side is not positive when the intrinsic sizes are 0. */
  predicate EmptyMeasure(e: Event) {
    e.MeasurePass? ==> Measure.SquareSide(e.widthSpec, e.heightSpec, 0, 0) <= 0
  }

  /**
   * A widget that has never been measured to a positive size never gets a
   * shader, and so every frame it draws is empty.
   */
  lemma {:induction false} ZeroViewportDrawsNothing(s: WidgetState, events: seq<Event>)
    requires Invariant(s) && s.shader.None? && s.measuredWidth <= 0
    requires forall i :: 0 <= i < |events| ==> EmptyMeasure(events[i])
    ensures Run(s, events).Ok? ==>
      var t := Run(s, events).value;
      t.shader.None? && Render.OnDraw(t) == Ok(Render.Frame([], t))
    decreases |events|
  {
    if |events| > 0 && Step(s, events[0]).Ok? {
      var t := Step(s, events[0]).value;
      StepKeepsInvariant(s, events[0]);
      assert EmptyMeasure(events[0]);
      assert t.shader.None? && t.measuredWidth <= 0;
      ZeroViewportDrawsNothing(t, events[1..]);
    }
  }

  /** The events a running animator would deliver, one tick per value. */
  function Ticks(values: seq<real>): (events: seq<Event>)
    ensures |events| == |values|
    ensures forall i :: 0 <= i < |values| ==> events[i] == Tick(values[i])
  {
    seq(|values|, i requires 0 <= i < |values| => Tick(values[i]))
  }

  /** Once detached, no sequence of ticks changes the widget. */
  lemma {:induction false} TicksAfterDetachChangeNothing(s: WidgetState, values: seq<real>)
    ensures Run(OnDetachedFromWindow(s), Ticks(values)) == Ok(OnDetachedFromWindow(s))
    decreases |values|
  {
    if |values| > 0 {
      var d := OnDetachedFromWindow(s);
      assert Ticks(values)[1..] == Ticks(values[1..]);
      assert Step(d, Tick(values[0])) == Ok(d);
      TicksAfterDetachChangeNothing(s, values[1..]);
    }
  }
}

=== FILE: measure.dfy ===
/**
 * The widget's square measurement: onMeasure, measureWidth and measureHeight.
 * A measure spec is the (mode, size) pair the parent passes down; its packing
 * into one Int is done by View.MeasureSpec and is not part of this model.
 */
module Measure {

  /** The three modes a parent can impose. */
  datatype SpecMode = Unspecified | Exactly | AtMost

  /** A spec size occupies the low 30 bits of the packed spec. */
  type SpecSize = n: int | 0 <= n < 0x4000_0000

  datatype MeasureSpec = MeasureSpec(mode: SpecMode, size: SpecSize)

  /** Extra pixels measureHeight adds to whatever height it resolves. */
  const HeightPadding: int := 2

  /**
   * measureWidth: an exact or at-most constraint yields the spec size; with no
   * constraint the width falls back to the intrinsic width field.
   */
  function MeasureWidth(spec: MeasureSpec, intrinsicWidth: int): (w: int)
    ensures spec.mode != Unspecified ==> w == spec.size
    ensures spec.mode == Unspecified ==> w == intrinsicWidth
  {
    match spec.mode
    case Exactly => spec.size
    case AtMost => spec.size
    case Unspecified => intrinsicWidth
  }

  /** measureHeight: resolved like the width, then padded by two pixels. */
  function MeasureHeight(spec: MeasureSpec, intrinsicHeight: int): (h: int)
    ensures spec.mode != Unspecified ==> h == spec.size + HeightPadding
    ensures spec.mode == Unspecified ==> h == intrinsicHeight + HeightPadding
  {
    var result :=
      match spec.mode
      case Exactly => spec.size
      case AtMost => spec.size
      case Unspecified => intrinsicHeight;
    result + HeightPadding
  }

  /**
   * onMeasure: the side of the square measured dimension, the smaller of the
   * resolved width and the resolved (padded) height.
   */
  function SquareSide(widthSpec: MeasureSpec, heightSpec: MeasureSpec, intrinsicWidth: int, intrinsicHeight: int): (side: int)
    ensures side <= MeasureWidth(widthSpec, intrinsicWidth)
    ensures side <= MeasureHeight(heightSpec, intrinsicHeight)
    ensures side == MeasureWidth(widthSpec, intrinsicWidth) || side == MeasureHeight(heightSpec, intrinsicHeight)
  {
    var width := MeasureWidth(widthSpec, intrinsicWidth);
    var height := MeasureHeight(heightSpec, intrinsicHeight);
    if width < height then width else height
  }

  /**
   * With both intrinsic sizes at zero (they are never assigned): an
   * unconstrained width gives a side of 0; an unconstrained height measures
   * as the padding alone, so a constrained width then gives at most 2; and
   * with both constrained the side is the smaller of the width and the
   * padded height.
   */
  lemma SquareSideWithZeroIntrinsics(widthSpec: MeasureSpec, heightSpec: MeasureSpec)
    ensures widthSpec.mode == Unspecified ==> SquareSide(widthSpec, heightSpec, 0, 0) == 0
    ensures heightSpec.mode == Unspecified ==> MeasureHeight(heightSpec, 0) == HeightPadding
    ensures widthSpec.mode != Unspecified && heightSpec.mode == Unspecified ==>
              SquareSide(widthSpec, heightSpec, 0, 0) == if widthSpec.size < HeightPadding then widthSpec.size else HeightPadding
    ensures widthSpec.mode != Unspecified && heightSpec.mode != Unspecified && widthSpec.size <= heightSpec.size + HeightPadding ==>
              SquareSide(widthSpec, heightSpec, 0, 0) == widthSpec.size
    ensures widthSpec.mode != Unspecified && heightSpec.mode != Unspecified && widthSpec.size > heightSpec.size + HeightPadding ==>
              SquareSide(widthSpec, heightSpec, 0, 0) == heightSpec.size + HeightPadding
  {
  }

  /** Exactly and AtMost are indistinguishable to the measurement. */
  lemma ExactlyAndAtMostAgree(size: SpecSize, other: MeasureSpec, intrinsicWidth: int, intrinsicHeight: int)
    ensures SquareSide(MeasureSpec(Exactly, size), other, intrinsicWidth, intrinsicHeight)
         == SquareSide(MeasureSpec(AtMost, size), other, intrinsicWidth, intrinsicHeight)
    ensures SquareSide(other, MeasureSpec(Exactly, size), intrinsicWidth, intrinsicHeight)
         == SquareSide(other, MeasureSpec(AtMost, size), intrinsicWidth, intrinsicHeight)
  {
  }
}

=== FILE: outcomes.dfy ===
/** Optional values and the exceptions the widget's code can raise. */
module Outcomes {

  /** A value that may be absent (a Kotlin nullable, or a styled attribute left unset). */
  datatype Option<+T> = None | Some(value: T) {

    /** The value, or `default` when absent (TypedArray's default-argument lookups). */
    function GetOr(default: T): T {
      match this
      case Some(v) => v
      case None => default
    }
  }

  /** The exceptions reachable through the widget's public surface. */
  datatype Fault =
    | NullStrokePaint       // the title-stroke paint is declared but never created
    | UninitializedArcRect  // the `lateinit` arc rectangle is read before onSizeChanged assigned it
    | NegativeDuration      // the animator refuses a negative duration

  /** Either the result of a call or the exception it throws. */
  datatype Result<+T> = Ok(value: T) | Err(fault: Fault)
}

=== FILE: render.dfy ===
/**
 * onDraw as an ordered trace of canvas commands. Text metrics and the pixel
 * effect of the shader matrix belong to the graphics library; a command
 * records what is drawn, with which paint settings, in which order.
 */
module Render {
  import opened Outcomes
  import opened Colors
  import opened Wavee
  import WaveTile

  /** Alpha of the full-circle progress track. */
  const TrackAlpha: Channel := 50
  /** Alpha of the progress arc. */
  const ProgressAlpha: Channel := 255
  /** Alpha of the wave paint. */
  const WaveAlpha: Channel := 200
  /** The progress arc starts at the top of the circle. */
  const ProgressStartAngle: real := -90.0
  /** The track sweeps the full circle. */
  const TrackSweep: real := 360.0

  /** The shader matrix: a vertical scale about a pivot row, then a translation. */
  datatype ShaderTransform = ShaderTransform(scaleY: real, pivotY: real, dx: real, dy: real)

  datatype DrawCmd =
    | FillCircle(cx: real, cy: real, radius: real, color: Color)
    | StrokeArc(oval: Rect, startAngle: real, sweep: real, color: Color, strokeWidth: real)
    | DrawText(text: string, color: Color, size: real)
    | ShadedCircle(cx: real, cy: real, radius: real, alpha: Channel, tile: WaveTile.Tile, transform: ShaderTransform)

  /** The commands of one frame and the widget's state after it (drawing changes the border paint's alpha). */
  datatype Frame = Frame(commands: seq<DrawCmd>, after: WidgetState)

  /** Radius of the background and wave circles: half the width less a 21-pixel margin and the border. */
  function Radius(s: WidgetState): (r: real)
    ensures r + 21.0 + s.borderWidth == s.width as real / 2.0
    ensures s.borderWidth >= 0.0 ==> r < s.width as real / 2.0
  {
    s.width as real / 2.0 - 1.0 - 20.0 - s.borderWidth
  }

  /**
   * The shader matrix for the current state: the tile, drawn at the default
   * amplitude and water level, is stretched vertically by amplitude / 0.1 and
   * moved by the shift ratio horizontally and by the water level's distance
   * from 0.5 vertically.
   */
  function WaveTransform(s: WidgetState): (m: ShaderTransform)
    ensures m.scaleY * DefaultAmplitudeRatio == s.amplitude
    ensures m.pivotY == s.defaultWaterLevel
    ensures m.dx == s.waveShift * s.width as real
    ensures m.dy == (DefaultWaterLevelRatio - s.waterLevel) * s.height as real
    ensures m.scaleY == 1.0 <==> s.amplitude == DefaultAmplitudeRatio
    ensures m.dx == 0.0 <==> s.waveShift == 0.0 || s.width == 0
    ensures m.dy == 0.0 <==> s.waterLevel == DefaultWaterLevelRatio || s.height == 0
  {
    ShaderTransform(
      s.amplitude / DefaultAmplitudeRatio,
      s.defaultWaterLevel,
      s.waveShift * s.width as real,
      (DefaultWaterLevelRatio - s.waterLevel) * s.height as real)
  }

  /**
   * onDraw. Without a shader nothing at all is drawn. With one: background
   * circle, 360-degree track at alpha 50, the progress arc from -90 degrees at
   * alpha 255, the label (which is never empty), then the wave circle at
   * alpha 200. The arc oval is `lateinit`: before onSizeChanged the first arc
   * throws.
   */
  function OnDraw(s: WidgetState): (r: Result<Frame>)
    ensures s.shader.None? ==> r == Ok(Frame([], s))
    ensures s.shader.Some? && s.arcRect.None? ==> r == Err(UninitializedArcRect)
    ensures s.shader.Some? && s.arcRect.Some? ==>
      var cx := s.width as real / 2.0;
      var cy := s.height as real / 2.0;
      r == Ok(Frame(
        [ FillCircle(cx, cy, Radius(s), s.backgroundColor),
          StrokeArc(s.arcRect.value, 0.0, TrackSweep, WithAlpha(s.borderColor, TrackAlpha), s.borderWidth),
          StrokeArc(s.arcRect.value, ProgressStartAngle, ArcProgress(s), WithAlpha(s.borderColor, ProgressAlpha), s.borderWidth),
          DrawText(CenterTitle(s), s.titleColor, s.titleSize),
          ShadedCircle(cx, cy, Radius(s), WaveAlpha, s.shader.value, WaveTransform(s)) ],
        s.(borderColor := WithAlpha(s.borderColor, ProgressAlpha))))
  {
    match s.shader
    case None => Ok(Frame([], s))
    case Some(tile) =>
      var cx := s.width as real / 2.0;
      var cy := s.height as real / 2.0;
      var radius := Radius(s);
      var background := FillCircle(cx, cy, radius, s.backgroundColor);
      match s.arcRect
      case None => Err(UninitializedArcRect)
      case Some(rect) =>
        var track := StrokeArc(rect, 0.0, TrackSweep, WithAlpha(s.borderColor, TrackAlpha), s.borderWidth);
        var progress := StrokeArc(rect, ProgressStartAngle, ArcProgress(s), WithAlpha(s.borderColor, ProgressAlpha), s.borderWidth);
        var title := CenterTitle(s);
        var labelCmd := if |title| > 0 then [DrawText(title, s.titleColor, s.titleSize)] else [];
        var wave := ShadedCircle(cx, cy, radius, WaveAlpha, tile, WaveTransform(s));
        assert |title| > 0;
        assert [background, track, progress] + labelCmd + [wave] == [background, track, progress, labelCmd[0], wave];
        Ok(Frame([background, track, progress] + labelCmd + [wave],
                 s.(borderColor := WithAlpha(s.borderColor, ProgressAlpha))))
  }

  /**
   * Drawing only changes the border paint's alpha, which every frame sets
   * again before use: a second frame draws exactly what the first drew.
   */
  lemma RedrawIsStable(s: WidgetState)
    requires OnDraw(s).Ok?
    ensures OnDraw(OnDraw(s).value.after) == Ok(Frame(OnDraw(s).value.commands, OnDraw(s).value.after))
  {
    if s.shader.Some? {
      var t := OnDraw(s).value.after;
      assert t == s.(borderColor := WithAlpha(s.borderColor, ProgressAlpha));
      assert t.(borderColor := WithAlpha(t.borderColor, ProgressAlpha)) == t;
      assert WithAlpha(t.borderColor, TrackAlpha) == WithAlpha(s.borderColor, TrackAlpha);
      assert WaveTransform(t) == WaveTransform(s);
      assert CenterTitle(t) == CenterTitle(s) && ArcProgress(t) == ArcProgress(s) && Radius(t) == Radius(s);
    }
  }

  /**
   * Changing the amplitude never rebuilds the tile: the next frame shades with
   * the same tile, stretched by the new ratio over the reference ratio 0.1.
   */
  lemma AmplitudeRescalesWithoutRebuild(s: WidgetState, amplitude: Int32)
    requires s.shader.Some? && s.arcRect.Some?
    ensures var s' := SetAmplitudeRatio(s, amplitude).state;
      var cmds := OnDraw(s').value.commands;
      && |cmds| == 5
      && cmds[4].ShadedCircle?
      && cmds[4].tile == s.shader.value
      && cmds[4].transform.scaleY == amplitude as real / 100.0
  {
  }

  /**
   * Setting progress moves the tile vertically by (0.5 - progress / 100) times
   * the height and sweeps the progress arc by progress * 3.6 degrees; at
   * progress 50 the tile sits where it was drawn.
   */
  lemma ProgressPositionsWave(s: WidgetState, progress: Int32)
    requires s.shader.Some? && s.arcRect.Some?
    ensures var s' := SetProgressValue(s, progress).state;
      var cmds := OnDraw(s').value.commands;
      && cmds[2].sweep == progress as real * 3.6
      && cmds[4].transform.dy == (0.5 - progress as real / 100.0) * s.height as real
      && (progress == 50 ==> cmds[4].transform.dy == 0.0)
  {
    var s' := SetProgressValue(s, progress).state;
    assert s' == s.(progress := progress, waterLevel := WaterLevelFor(progress));
    var cmds := OnDraw(s').value.commands;
    assert cmds[2].sweep == ArcProgress(s');
    assert cmds[4].transform == WaveTransform(s');
  }
}

=== FILE: wavee.dfy ===
/**
 * The Wavee widget's state and its public surface: construction from styled
 * attributes, the property setters (each returning the new state and whether
 * it asked for a redraw), measurement, size changes, the wave-shader update
 * and the animation controls.
 */
module Wavee {
  import opened Outcomes
  import opened Colors
  import Decimal
  import Measure
  import Animation
  import WaveTile

  /** A Kotlin Int. */
  type Int32 = n: int | -0x8000_0000 <= n < 0x8000_0000

  // Constants of the companion object.
  const DefaultAmplitudeRatio: real := 0.1
  const DefaultAmplitudeValue: real := 50.0
  const DefaultWaterLevelRatio: real := 0.5
  const DefaultWaveShiftRatio: real := 0.0
  const DefaultProgressValue: Int32 := 0
  const DefaultWaveColor: ColorInt := 0xFF35_8BEF
  const DefaultViewBackground: ColorInt := 0xFF67_6767
  const DefaultTitleColor: ColorInt := 0xFFFF_FFFF

  /** The colour of a Paint nobody has coloured: opaque black. */
  const PaintDefaultColor: Color := Color(0xFF, 0, 0, 0)
  const DefaultBorderWidthDp: real := 5.0
  const DefaultTitleCenterSizeSp: real := 22.0

  /** The water level a fresh widget holds before its progress is applied. */
  const InitialWaterLevelRatio: real := 1.0

  /** Facts about the host the widget reads but does not own. */
  datatype Platform = Platform(
    editMode: bool,       // isInEditMode: running inside the layout editor's preview
    canPause: bool,       // the platform's animators support pause and resume
    density: real,        // display density, for dp conversion
    scaledDensity: real)  // scaled density, for sp conversion

  /** The styled attributes read at construction; None where the layout leaves one unset. */
  datatype Attributes = Attributes(
    waveColor: Option<ColorInt>,
    waveAmplitude: Option<real>,
    progressValue: Option<Int32>,
    progressColor: Option<ColorInt>,
    backgroundColor: Option<ColorInt>,
    titleColor: Option<ColorInt>,
    titleSize: Option<real>,
    title: Option<string>)

  /** The oval the progress arcs are stroked in. */
  datatype Rect = Rect(left: real, top: real, right: real, bottom: real)

  datatype WidgetState = WidgetState(
    platform: Platform,
    progress: Int32,                 // mProgressValue
    waterLevel: real,                // waterLevelRatio
    waveShift: real,                 // waveShiftRatio
    amplitude: real,                 // amplitudeRatio
    waveColor: Color,                // mWaveColor
    borderColor: Color,              // the border paint's colour
    borderWidth: real,               // the border paint's stroke width
    backgroundColor: Color,          // the background paint's colour
    titleColor: Color,               // the title paint's colour
    titleSize: real,                 // the title paint's text size
    titleField: Option<string>,      // centerTitle's backing field, which its getter never reads
    intrinsicWidth: int,             // mCanvasWidth, never assigned
    intrinsicHeight: int,            // mCanvasHeight, never assigned
    measuredWidth: int,
    measuredHeight: int,
    width: int,                      // the laid-out size
    height: int,
    arcRect: Option<Rect>,           // `rect`, lateinit until onSizeChanged
    defaultWaterLevel: real,         // mDefaultWaterLevel, the pivot of the vertical rescale
    shader: Option<WaveTile.Tile>,   // mWaveShader
    animator: Animation.Animator)

  /** A setter's outcome: the new state, whether it invalidated the view, and whether it rebuilt the tile. */
  datatype Update = Update(state: WidgetState, redraw: bool, tileRebuilt: bool)

  /** Float.toInt: truncation toward zero, saturating at the ends of the Int range. */
  function FloatToInt(x: real): (n: Int32)
    ensures 0.0 <= x < 0x8000_0000 as real ==> n as real <= x < n as real + 1.0
    ensures -0x8000_0000 as real <= x < 0.0 ==> n as real - 1.0 < x <= n as real
    ensures x >= 0x8000_0000 as real ==> n == 0x7FFF_FFFF
    ensures x < -0x8000_0000 as real ==> n == -0x8000_0000
    ensures x >= 0.0 ==> n >= 0
    ensures x < 0.0 ==> n <= 0
  {
    var t := if x >= 0.0 then x.Floor else -((-x).Floor);
    if t < -0x8000_0000 then -0x8000_0000 else if t >= 0x8000_0000 then 0x7FFF_FFFF else t
  }

  /** dp2px: a size in density-independent pixels, in whole pixels. */
  function Dp2Px(p: Platform, dp: real): (px: Int32)
    ensures dp * p.density >= 0.0 ==> px >= 0
    ensures 0.0 <= dp * p.density < 0x7FFF_FFFF as real ==> dp * p.density - 0.5 < px as real <= dp * p.density + 0.5
  {
    FloatToInt(dp * p.density + 0.5)
  }

  /** sp2px: a size in scale-independent pixels, in whole pixels. */
  function Sp2Px(p: Platform, sp: real): (px: Int32)
    ensures sp * p.scaledDensity >= 0.0 ==> px >= 0
    ensures 0.0 <= sp * p.scaledDensity < 0x7FFF_FFFF as real ==> sp * p.scaledDensity - 0.5 < px as real <= sp * p.scaledDensity + 0.5
  {
    FloatToInt(sp * p.scaledDensity + 0.5)
  }

  /**
   * Adding one half and truncating rounds half up, as Math.round does, for
   * every non-negative pixel size that fits an Int.
   */
  lemma Dp2PxRoundsNonNegative(p: Platform, dp: real)
    requires 0.0 <= dp * p.density < 0x7FFF_FFFF as real
    ensures Dp2Px(p, dp) == Round(dp * p.density)
  {
  }

  /**
   * For a negative size the truncation goes toward zero instead: -0.7 dp at
   * density 1 converts to 0 pixels where rounding gives -1.
   */
  lemma Dp2PxNegativeTruncatesTowardZero()
    ensures Dp2Px(Platform(false, true, 1.0, 1.0), -0.7) == 0
    ensures Round(-0.7) == -1
  {
  }

  // ---------------------------------------------------------------- progress

  /** The water level a progress value stands for. */
  function WaterLevelFor(progress: int): real { progress as real / 100.0 }

  /** The centerTitle getter: always the progress followed by a percent sign. */
  function CenterTitle(s: WidgetState): (t: string)
    ensures |t| >= 2 && t[|t| - 1] == '%'
    ensures s.progress < 0 <==> t[0] == '-'
    ensures s.progress >= 0 ==> Decimal.AllDigits(t[..|t| - 1]) && (|t| > 2 ==> t[0] != '0')
    ensures s.progress < 0 ==> |t| > 2 && Decimal.AllDigits(t[1..|t| - 1]) && t[1] != '0'
  {
    Decimal.IntToDecimal(s.progress) + "%"
  }

  /** The arcProgress getter: the sweep of the progress arc in degrees. */
  function ArcProgress(s: WidgetState): (sweep: real)
    ensures sweep == 360.0 * WaterLevelFor(s.progress)
    ensures 0 <= s.progress <= 100 ==> 0.0 <= sweep <= 360.0
  {
    s.progress as real * 3.6
  }

  /** Reads a label of the form "<integer>%" back into the integer. */
  function ParseTitle(t: string): Option<int> {
    if |t| > 0 && t[|t| - 1] == '%' then Decimal.ParseInt(t[..|t| - 1]) else None
  }

  /** The label is never empty, ends in '%' and reads back as the progress; distinct progress gives distinct labels. */
  lemma CenterTitleEncodesProgress(s: WidgetState, s': WidgetState)
    ensures |CenterTitle(s)| >= 2 && CenterTitle(s)[|CenterTitle(s)| - 1] == '%'
    ensures ParseTitle(CenterTitle(s)) == Some(s.progress as int)
    ensures CenterTitle(s) == CenterTitle(s') <==> s.progress == s'.progress
  {
    var t := CenterTitle(s);
    assert t[..|t| - 1] == Decimal.IntToDecimal(s.progress);
    Decimal.IntToDecimalRoundTrip(s.progress);
    if t == CenterTitle(s') {
      var t' := CenterTitle(s');
      assert t'[..|t'| - 1] == Decimal.IntToDecimal(s'.progress);
      Decimal.IntToDecimalRoundTrip(s'.progress);
    }
  }

  // ---------------------------------------------------------------- construction

  /** The amplitude read at construction: attribute / 1000, capped above at the default ratio. */
  function InitialAmplitude(attribute: real): (r: real)
    ensures r <= DefaultAmplitudeRatio
    ensures attribute / 1000.0 <= DefaultAmplitudeRatio ==> r == attribute / 1000.0
    ensures attribute / 1000.0 > DefaultAmplitudeRatio ==> r == DefaultAmplitudeRatio
  {
    var amplitudeRatioAttr := attribute / 1000.0;
    if amplitudeRatioAttr > DefaultAmplitudeRatio then DefaultAmplitudeRatio else amplitudeRatioAttr
  }

  /** The constructor: property initialisers, then the init block reading the attributes. */
  function Init(attrs: Attributes, platform: Platform): (s: WidgetState)
    ensures s.progress == attrs.progressValue.GetOr(DefaultProgressValue)
    ensures s.waterLevel == WaterLevelFor(s.progress)
    ensures s.waveShift == DefaultWaveShiftRatio
    ensures s.amplitude == InitialAmplitude(attrs.waveAmplitude.GetOr(DefaultAmplitudeValue))
    ensures attrs.waveAmplitude.None? ==> s.amplitude == 0.05
    ensures s.waveColor == Unpack(attrs.waveColor.GetOr(DefaultWaveColor))
    ensures s.borderColor == Unpack(attrs.progressColor.GetOr(DefaultWaveColor))
    ensures s.backgroundColor == Unpack(attrs.backgroundColor.GetOr(DefaultViewBackground))
    ensures s.titleColor == Unpack(attrs.titleColor.GetOr(DefaultTitleColor))
    ensures s.borderWidth == Dp2Px(platform, DefaultBorderWidthDp) as real
    ensures CenterTitle(s) == Decimal.IntToDecimal(s.progress) + "%"
    ensures s.intrinsicWidth == 0 && s.intrinsicHeight == 0
    ensures s.shader.None? && s.arcRect.None?
    ensures s.titleSize == attrs.titleSize.GetOr(Sp2Px(platform, DefaultTitleCenterSizeSp) as real)
    ensures s.titleField == attrs.title
    ensures s.platform == platform
    ensures s.measuredWidth == 0 && s.measuredHeight == 0 && s.width == 0 && s.height == 0
    ensures s.defaultWaterLevel == 0.0
    ensures s.animator == Animation.Initial()
  {
    // Property initialisers, in declaration order.
    var declared := WidgetState(
      platform := platform,
      progress := DefaultProgressValue,
      waterLevel := InitialWaterLevelRatio,
      waveShift := DefaultWaveShiftRatio,
      amplitude := 0.0,
      waveColor := Color(0, 0, 0, 0),
      borderColor := PaintDefaultColor,
      borderWidth := Dp2Px(platform, DefaultBorderWidthDp) as real,
      backgroundColor := PaintDefaultColor,
      titleColor := PaintDefaultColor,
      titleSize := 0.0,
      titleField := Some(""),
      intrinsicWidth := 0,
      intrinsicHeight := 0,
      measuredWidth := 0,
      measuredHeight := 0,
      width := 0,
      height := 0,
      arcRect := None,
      defaultWaterLevel := 0.0,
      shader := None,
      animator := Animation.Initial());
    // The init block.
    var s1 := declared.(
      waveColor := Unpack(attrs.waveColor.GetOr(DefaultWaveColor)),
      amplitude := InitialAmplitude(attrs.waveAmplitude.GetOr(DefaultAmplitudeValue)));
    var s2 := SetProgressValue(s1, attrs.progressValue.GetOr(DefaultProgressValue)).state;
    s2.(
      borderColor := Unpack(attrs.progressColor.GetOr(DefaultWaveColor)),
      backgroundColor := Unpack(attrs.backgroundColor.GetOr(DefaultViewBackground)),
      titleColor := Unpack(attrs.titleColor.GetOr(DefaultTitleColor)),
      titleSize := attrs.titleSize.GetOr(Sp2Px(platform, DefaultTitleCenterSizeSp) as real),
      titleField := attrs.title)
  }

  /** Whatever title the attributes carry, the constructed widget's label is the progress. */
  lemma TitleAttributeIgnored(attrs: Attributes, platform: Platform, title: Option<string>)
    ensures CenterTitle(Init(attrs.(title := title), platform)) == CenterTitle(Init(attrs, platform))
  {
  }

  // ---------------------------------------------------------------- setters

  /** The waterLevelRatio setter: stores and invalidates only when the value differs. */
  function SetWaterLevelRatio(s: WidgetState, ratio: real): (u: Update)
    ensures u.state == s.(waterLevel := ratio)
    ensures u.redraw <==> s.waterLevel != ratio
    ensures !u.redraw ==> u.state == s
    ensures !u.tileRebuilt
  {
    if s.waterLevel != ratio then Update(s.(waterLevel := ratio), true, false) else Update(s, false, false)
  }

  /** The waveShiftRatio setter: stores and invalidates only when the value differs. */
  function SetWaveShiftRatio(s: WidgetState, ratio: real): (u: Update)
    ensures u.state == s.(waveShift := ratio)
    ensures u.redraw <==> s.waveShift != ratio
    ensures !u.redraw ==> u.state == s
    ensures !u.tileRebuilt
  {
    if s.waveShift != ratio then Update(s.(waveShift := ratio), true, false) else Update(s, false, false)
  }

  /**
   * The progressValue setter: stores the value unclamped and moves the water
   * level to value / 100 through its setter, so it invalidates exactly when
   * the water level moves.
   */
  function SetProgressValue(s: WidgetState, progress: Int32): (u: Update)
    ensures u.state == s.(progress := progress, waterLevel := WaterLevelFor(progress))
    ensures CenterTitle(u.state) == Decimal.IntToDecimal(progress) + "%"
    ensures ArcProgress(u.state) == progress as real * 3.6
    ensures u.redraw <==> s.waterLevel != WaterLevelFor(progress)
    ensures !u.tileRebuilt
  {
    SetWaterLevelRatio(s.(progress := progress), progress as real / 100.0)
  }

  /** When the water level follows the progress, setting progress redraws exactly when the progress changes. */
  lemma ProgressRedrawsOnChange(s: WidgetState, progress: Int32)
    requires s.waterLevel == WaterLevelFor(s.progress)
    ensures SetProgressValue(s, progress).redraw <==> progress != s.progress
    ensures !SetProgressValue(s, progress).redraw ==> SetProgressValue(s, progress).state == s
  {
  }

  /** Progress is not clamped: 101 gives water level 1.01, a 363.6 degree sweep and the label "101%". */
  lemma ProgressUnclamped(s: WidgetState)
    ensures SetProgressValue(s, 101).state.waterLevel == 1.01
    ensures ArcProgress(SetProgressValue(s, 101).state) == 363.6
    ensures CenterTitle(SetProgressValue(s, 101).state) == "101%"
  {
  }

  /**
   * setAmplitudeRatio: the integer argument / 1000, with no cap, invalidating
   * only when the ratio changes. The tile is not rebuilt: the drawing rescales it.
   */
  function SetAmplitudeRatio(s: WidgetState, amplitude: Int32): (u: Update)
    ensures u.state == s.(amplitude := amplitude as real / 1000.0)
    ensures u.redraw <==> s.amplitude != amplitude as real / 1000.0
    ensures !u.tileRebuilt && u.state.shader == s.shader
  {
    var ratio := amplitude as real / 1000.0;
    if s.amplitude != ratio then Update(s.(amplitude := ratio), true, false) else Update(s, false, false)
  }

  /** Unlike construction, the setter does not cap: 1000 gives 1.0 where construction gives 0.1. */
  lemma AmplitudeSetterUncapped(s: WidgetState, attrs: Attributes, platform: Platform)
    ensures SetAmplitudeRatio(s, 1000).state.amplitude == 1.0
    ensures Init(attrs.(waveAmplitude := Some(1000.0)), platform).amplitude == DefaultAmplitudeRatio
    ensures SetAmplitudeRatio(s, 20).state.amplitude == 0.02
  {
  }

  /** The pixel bounds a new tile is built for, when both are positive. */
  predicate CanBuildTile(s: WidgetState) { s.measuredWidth > 0 && s.measuredHeight > 0 }

  /** bitmapBuffer: a `val` initialised to null and never assigned. */
  const BitmapBuffer: Option<WaveTile.Tile> := None

  /** haveBoundsChanged: the buffer's bounds differ from the measured ones. */
  predicate HaveBoundsChanged(s: WidgetState, buffer: WaveTile.Tile)
    ensures CanBuildTile(s) && buffer == WaveTile.Generate(s.measuredWidth, s.measuredHeight, s.waveColor) ==> !HaveBoundsChanged(s, buffer)
  {
    s.measuredWidth != buffer.width || s.measuredHeight != buffer.height
  }

  /** The guard `bitmapBuffer == null || haveBoundsChanged()`, evaluated left to right. */
  predicate NeedsNewBitmap(s: WidgetState, buffer: Option<WaveTile.Tile>)
    ensures buffer == BitmapBuffer ==> NeedsNewBitmap(s, buffer)
  {
    match buffer
    case None => true
    case Some(b) => HaveBoundsChanged(s, b)
  }

  /**
   * updateWaveShader. The guard `bitmapBuffer == null || haveBoundsChanged()`
   * always holds, so a tile is built on every call whose measured bounds are
   * positive; otherwise the previous shader stays.
   */
  function UpdateWaveShader(s: WidgetState): (r: WidgetState)
    ensures CanBuildTile(s) ==>
      && r.shader == Some(WaveTile.Generate(s.measuredWidth, s.measuredHeight, s.waveColor))
      && r.defaultWaterLevel == s.measuredHeight as real * DefaultWaterLevelRatio
    ensures !CanBuildTile(s) ==> r == s
    ensures r == s.(shader := r.shader, defaultWaterLevel := r.defaultWaterLevel)
  {
    if NeedsNewBitmap(s, BitmapBuffer) then
      if CanBuildTile(s) then
        s.(shader := Some(WaveTile.Generate(s.measuredWidth, s.measuredHeight, s.waveColor)),
           defaultWaterLevel := s.measuredHeight as real * DefaultWaterLevelRatio)
      else s
    else s
  }

  /** Rebuilding with unchanged bounds and colour reproduces the same tile: calling twice is calling once. */
  lemma UpdateWaveShaderIdempotent(s: WidgetState)
    ensures UpdateWaveShader(UpdateWaveShader(s)) == UpdateWaveShader(s)
  {
  }

  /**
   * A tile just built has the measured bounds, so haveBoundsChanged would
   * report no change for it until the next measure pass with other bounds.
   */
  lemma BuiltTileMatchesBounds(s: WidgetState, widthSpec: Measure.MeasureSpec, heightSpec: Measure.MeasureSpec)
    requires CanBuildTile(s)
    ensures UpdateWaveShader(s).shader.Some?
    ensures !HaveBoundsChanged(s, UpdateWaveShader(s).shader.value)
    ensures var side := Measure.SquareSide(widthSpec, heightSpec, s.intrinsicWidth, s.intrinsicHeight);
      (HaveBoundsChanged(OnMeasure(s, widthSpec, heightSpec), UpdateWaveShader(s).shader.value)
       <==> side != s.measuredWidth || side != s.measuredHeight)
  {
  }

  /** The waveColor setter: stores the colour, rebuilds the tile and invalidates. */
  function SetWaveColor(s: WidgetState, color: ColorInt): (u: Update)
    ensures u.state == UpdateWaveShader(s.(waveColor := Unpack(color)))
    ensures u.redraw
    ensures u.tileRebuilt <==> CanBuildTile(s)
    ensures CanBuildTile(s) ==> u.state.shader.value.lines[0].color == AdjustAlpha(Unpack(color), WaveTile.BackWaveFactor)
  {
    var t := UpdateWaveShader(s.(waveColor := Unpack(color)));
    assert CanBuildTile(s) ==> t.shader.value.lines[0] == WaveTile.FirstPassLine(s.measuredWidth, Unpack(color), 0);
    Update(t, true, CanBuildTile(s))
  }

  /** The borderWidth setter: stores the stroke width and invalidates; the arc oval keeps its old inset. */
  function SetBorderWidth(s: WidgetState, width: real): (u: Update)
    ensures u.state == s.(borderWidth := width)
    ensures u.state.arcRect == s.arcRect
    ensures u.redraw && !u.tileRebuilt
  {
    Update(s.(borderWidth := width), true, false)
  }

  /** The borderColor setter: stores the colour, rebuilds the tile and invalidates. */
  function SetBorderColor(s: WidgetState, color: ColorInt): (u: Update)
    ensures u.state == UpdateWaveShader(s.(borderColor := Unpack(color)))
    ensures Pack(u.state.borderColor) == color
    ensures u.redraw
    ensures u.tileRebuilt <==> CanBuildTile(s)
  {
    PackUnpack(color);
    Update(UpdateWaveShader(s.(borderColor := Unpack(color))), true, CanBuildTile(s))
  }

  /** The centerTitleColor setter: stores the colour without invalidating. */
  function SetCenterTitleColor(s: WidgetState, color: ColorInt): (u: Update)
    ensures u.state == s.(titleColor := Unpack(color))
    ensures !u.redraw && !u.tileRebuilt
  {
    Update(s.(titleColor := Unpack(color)), false, false)
  }

  /** The centerTitleSize setter: converts from sp and stores without invalidating. */
  function SetCenterTitleSize(s: WidgetState, size: real): (u: Update)
    ensures u.state == s.(titleSize := Sp2Px(s.platform, size) as real)
    ensures !u.redraw && !u.tileRebuilt
  {
    Update(s.(titleSize := Sp2Px(s.platform, size) as real), false, false)
  }

  /** Assigning centerTitle writes its backing field, which the getter ignores. */
  function SetCenterTitle(s: WidgetState, title: Option<string>): (u: Update)
    ensures u.state.titleField == title
    ensures CenterTitle(u.state) == CenterTitle(s)
    ensures !u.redraw && !u.tileRebuilt
    ensures u.state == s.(titleField := title)
  {
    Update(s.(titleField := title), false, false)
  }

  /** setCenterTitleStrokeWidth dereferences the stroke paint, which is never created. */
  function SetCenterTitleStrokeWidth(s: WidgetState, width: real): (r: Result<Update>)
    ensures r == Err(NullStrokePaint)
  {
    Err(NullStrokePaint)
  }

  /** setCenterTitleStrokeColor dereferences the stroke paint, which is never created. */
  function SetCenterTitleStrokeColor(s: WidgetState, color: ColorInt): (r: Result<Update>)
    ensures r == Err(NullStrokePaint)
  {
    Err(NullStrokePaint)
  }

  /** Setting a ratio to the value it already holds is a no-op without redraw. */
  lemma RatioSettersIdempotent(s: WidgetState, ratio: real, amplitude: Int32)
    ensures var u := SetWaterLevelRatio(s, ratio); SetWaterLevelRatio(u.state, ratio) == Update(u.state, false, false)
    ensures var u := SetWaveShiftRatio(s, ratio); SetWaveShiftRatio(u.state, ratio) == Update(u.state, false, false)
    ensures var u := SetAmplitudeRatio(s, amplitude); SetAmplitudeRatio(u.state, amplitude) == Update(u.state, false, false)
  {
  }

  // ---------------------------------------------------------------- layout

  /** onMeasure: a square of side min(resolved width, resolved height + 2). */
  function OnMeasure(s: WidgetState, widthSpec: Measure.MeasureSpec, heightSpec: Measure.MeasureSpec): (r: WidgetState)
    ensures r.measuredWidth == r.measuredHeight
    ensures r.measuredWidth <= Measure.MeasureWidth(widthSpec, s.intrinsicWidth)
    ensures r.measuredWidth <= Measure.MeasureHeight(heightSpec, s.intrinsicHeight)
    ensures r.measuredWidth == Measure.SquareSide(widthSpec, heightSpec, s.intrinsicWidth, s.intrinsicHeight)
    ensures r == s.(measuredWidth := r.measuredWidth, measuredHeight := r.measuredHeight)
  {
    var side := Measure.SquareSide(widthSpec, heightSpec, s.intrinsicWidth, s.intrinsicHeight);
    s.(measuredWidth := side, measuredHeight := side)
  }

  /**
   * onSizeChanged: records the new size, insets the arc oval by the current
   * border width on every side, and updates the wave shader.
   */
  function OnSizeChanged(s: WidgetState, w: int, h: int): (r: WidgetState)
    ensures r.width == w && r.height == h
    ensures r.arcRect == Some(Rect(s.borderWidth, s.borderWidth, w as real - s.borderWidth, h as real - s.borderWidth))
    ensures CanBuildTile(s) ==> r.shader == Some(WaveTile.Generate(s.measuredWidth, s.measuredHeight, s.waveColor))
    ensures !CanBuildTile(s) ==> r.shader == s.shader
    ensures r == UpdateWaveShader(s.(width := w, height := h, arcRect := r.arcRect))
    ensures CanBuildTile(s) || r == s.(width := w, height := h, arcRect := r.arcRect)
  {
    var bw := s.borderWidth;
    UpdateWaveShader(s.(width := w, height := h, arcRect := Some(Rect(bw, bw, w as real - bw, h as real - bw))))
  }

  // ---------------------------------------------------------------- animation

  /**
   * startAnimation: ignored in the layout editor's preview. Otherwise the set
   * (re)starts, and its animator assigns the start value through the
   * waveShiftRatio setter at once, which redraws when the value changes.
   */
  function StartAnimation(s: WidgetState): (u: Update)
    ensures s.platform.editMode ==> u == Update(s, false, false)
    ensures !s.platform.editMode ==>
              u == SetWaveShiftRatio(s.(animator := Animation.Start(s.animator, false)), Animation.StartValue)
    ensures u.state.animator == Animation.Start(s.animator, s.platform.editMode)
    ensures !s.platform.editMode ==> u.state.animator.phase == Animation.Running && u.state.waveShift == Animation.StartValue
    ensures u.redraw <==> !s.platform.editMode && s.waveShift != Animation.StartValue
    ensures u.state == s.(animator := u.state.animator, waveShift := u.state.waveShift)
    ensures !u.tileRebuilt
  {
    if s.platform.editMode then Update(s, false, false)
    else SetWaveShiftRatio(s.(animator := Animation.Start(s.animator, false)), Animation.StartValue)
  }

  /**
   * endAnimation: stops the set. A started set first assigns the animator's
   * end value through the waveShiftRatio setter, which redraws when the value
   * changes; an idle set has nothing to end.
   */
  function EndAnimation(s: WidgetState): (u: Update)
    ensures u.state.animator == Animation.Stop(s.animator)
    ensures Animation.Started(s.animator) ==> u == SetWaveShiftRatio(s.(animator := Animation.Stop(s.animator)), Animation.EndValue)
    ensures Animation.Started(s.animator) ==> u.state.waveShift == Animation.EndValue
    ensures !Animation.Started(s.animator) ==> u == Update(s, false, false)
    ensures u.redraw <==> Animation.Started(s.animator) && s.waveShift != Animation.EndValue
    ensures u.state == s.(animator := u.state.animator, waveShift := u.state.waveShift)
    ensures !u.tileRebuilt
  {
    var stopped := s.(animator := Animation.Stop(s.animator));
    if Animation.Started(s.animator) then SetWaveShiftRatio(stopped, Animation.EndValue) else Update(stopped, false, false)
  }

  /** cancelAnimation: stops the set where it is; the wave shift keeps its last value. */
  function CancelAnimation(s: WidgetState): (r: WidgetState)
    ensures r == s.(animator := Animation.Stop(s.animator))
    ensures r.animator.phase == Animation.Idle && r.waveShift == s.waveShift
  {
    s.(animator := Animation.Stop(s.animator))
  }

  /** pauseAnimation: pauses a running set where the platform can pause, otherwise does nothing. */
  function PauseAnimation(s: WidgetState): (r: WidgetState)
    ensures r == s.(animator := Animation.Pause(s.animator, s.platform.canPause))
    ensures !s.platform.canPause ==> r == s
    ensures r.animator.phase == Animation.Paused <==>
              s.animator.phase == Animation.Paused || (s.platform.canPause && s.animator.phase == Animation.Running)
    ensures r.animator.duration == s.animator.duration
  {
    s.(animator := Animation.Pause(s.animator, s.platform.canPause))
  }

  /** resumeAnimation: resumes a paused set where the platform can pause, otherwise does nothing. */
  function ResumeAnimation(s: WidgetState): (r: WidgetState)
    ensures r == s.(animator := Animation.Resume(s.animator, s.platform.canPause))
    ensures !s.platform.canPause ==> r == s
    ensures s.animator.phase != Animation.Paused ==> r == s
    ensures r.animator.phase == Animation.Running <==>
              s.animator.phase == Animation.Running || (s.platform.canPause && s.animator.phase == Animation.Paused)
    ensures r.animator.duration == s.animator.duration
  {
    s.(animator := Animation.Resume(s.animator, s.platform.canPause))
  }

  /** setAnimDuration: changes only the duration; a negative one throws. */
  function SetAnimDuration(s: WidgetState, duration: Animation.Int64): (r: Result<WidgetState>)
    ensures duration < 0 <==> r == Err(NegativeDuration)
    ensures r.Ok? ==> r.value == s.(animator := s.animator.(duration := duration))
  {
    match Animation.SetDuration(s.animator, duration)
    case Ok(a) => Ok(s.(animator := a))
    case Err(f) => Err(f)
  }

  /** onAttachedToWindow starts the animation: pure delegation to StartAnimation, whose contract says what that does. */
  function OnAttachedToWindow(s: WidgetState): (u: Update)
    ensures u == StartAnimation(s)
  {
    StartAnimation(s)
  }

  /** onDetachedFromWindow cancels it: pure delegation to CancelAnimation, whose contract says what that does. */
  function OnDetachedFromWindow(s: WidgetState): (r: WidgetState)
    ensures r == CancelAnimation(s)
  {
    CancelAnimation(s)
  }

  /** One animation frame: a running animator assigns a new shift ratio through its setter. */
  function AnimationTick(s: WidgetState, value: real): (u: Update)
    ensures s.animator.phase == Animation.Running ==> u == SetWaveShiftRatio(s, value)
    ensures s.animator.phase != Animation.Running ==> u == Update(s, false, false)
  {
    if s.animator.phase == Animation.Running then SetWaveShiftRatio(s, value) else Update(s, false, false)
  }

  /**
   * After detaching no tick changes anything; attaching again (outside the
   * editor preview) runs the animation from the start value, and ticks move
   * the shift ratio again.
   */
  lemma DetachThenReattach(s: WidgetState, value: real)
    ensures var d := OnDetachedFromWindow(s); AnimationTick(d, value) == Update(d, false, false)
    ensures !s.platform.editMode ==>
      var a := OnAttachedToWindow(OnDetachedFromWindow(s)).state;
      a.animator.phase == Animation.Running && a.waveShift == Animation.StartValue
        && AnimationTick(a, value).state.waveShift == value
    ensures s.platform.editMode ==>
      OnAttachedToWindow(OnDetachedFromWindow(s)).state == OnDetachedFromWindow(s)
  {
  }

}

=== FILE: wavetile.dfy ===
/**
 * The raster behind the wave shader, as built by updateWaveShader. The sine
 * heights themselves are floating-point work and are not modelled: a stroke
 * records WHICH sample of the height array `waveY` it starts from.
 */
module WaveTile {
  import opened Colors

  /** Alpha factor of the dim background wave. */
  const BackWaveFactor: real := 0.3

  /** One vertical stroke at column `x`, from the height waveY[sample] down to the tile bottom. */
  datatype WaveLine = WaveLine(x: nat, sample: nat, color: Color)

  /** A generated tile: its bounds, the bottom row the strokes reach, and the strokes in drawing order. */
  datatype Tile = Tile(width: nat, height: nat, bottom: nat, lines: seq<WaveLine>)

  /** Number of columns each pass visits, `endX` = width + 1 (columns 0 through width). */
  function Columns(width: nat): nat { width + 1 }

  /** Shift of the second wave, a quarter of the tile width rounded toward zero. */
  function SecondWaveShift(width: nat): nat { width / 4 }

  /** The sample the second pass reads at column `x`. */
  function SecondWaveSample(width: nat, x: nat): nat {
    (x + SecondWaveShift(width)) % Columns(width)
  }

  function FirstPassLine(width: nat, color: Color, x: nat): WaveLine {
    WaveLine(x, x, AdjustAlpha(color, BackWaveFactor))
  }

  function SecondPassLine(width: nat, color: Color, x: nat): WaveLine {
    WaveLine(x, SecondWaveSample(width, x), color)
  }

  /** The strokes of both passes: every column once dimmed, then every column once at full colour. */
  function TileLines(width: nat, color: Color): seq<WaveLine> {
    var n := Columns(width);
    seq(2 * n, i requires 0 <= i < 2 * n =>
      if i < n then FirstPassLine(width, color, i) else SecondPassLine(width, color, i - n))
  }

  /** The tile of the given bounds drawn in the given wave colour. */
  function Generate(width: nat, height: nat, color: Color): Tile
    requires width > 0 && height > 0
  {
    Tile(width, height, height + 1, TileLines(width, color))
  }

  /** What every generated tile satisfies: positive bounds, two full passes, every read inside waveY. */
  predicate WellFormed(t: Tile) {
    && t.width > 0 && t.height > 0
    && t.bottom == t.height + 1
    && |t.lines| == 2 * Columns(t.width)
    && forall i :: 0 <= i < |t.lines| ==> t.lines[i].x < Columns(t.width) && t.lines[i].sample < Columns(t.width)
  }

  /**
   * The shape of a generated tile: both passes cover every column in order,
   * the first pass in the wave colour with its alpha scaled by 0.3 and reading
   * its own column, the second in the full colour reading a sample inside the
   * array of width + 1 heights.
   */
  lemma GenerateShape(width: nat, height: nat, color: Color)
    requires width > 0 && height > 0
    ensures WellFormed(Generate(width, height, color))
    ensures var t := Generate(width, height, color);
      forall x :: 0 <= x < Columns(width) ==>
        && t.lines[x].x == x && t.lines[x].sample == x
        && t.lines[x].color.alpha == Round(color.alpha as real * BackWaveFactor)
        && t.lines[x].color.red == color.red
        && t.lines[x].color.green == color.green
        && t.lines[x].color.blue == color.blue
    ensures var t := Generate(width, height, color);
      forall x :: Columns(width) <= x < 2 * Columns(width) ==>
        t.lines[x].x == x - Columns(width) && t.lines[x].color == color && t.lines[x].sample < Columns(width)
  {
    var t := Generate(width, height, color);
    var n := Columns(width);
    forall i | 0 <= i < |t.lines|
      ensures t.lines[i].x < n && t.lines[i].sample < n
    {
      if i < n {
        assert t.lines[i] == FirstPassLine(width, color, i);
      } else {
        assert t.lines[i] == SecondPassLine(width, color, i - n);
      }
    }
    forall x | n <= x < 2 * n
      ensures t.lines[x].x == x - n && t.lines[x].color == color && t.lines[x].sample < n
    {
      assert t.lines[x] == SecondPassLine(width, color, x - n);
    }
  }

  /**
   * The two loops of updateWaveShader: the first visits columns 0 until endX
   * drawing the dimmed wave, the second visits them again drawing the full
   * wave from the shifted sample. They produce exactly the declarative tile.
   */
  method BuildTile(width: nat, height: nat, color: Color) returns (t: Tile)
    requires width > 0 && height > 0
    ensures t == Generate(width, height, color)
  {
    var endX := width + 1;
    var lines: seq<WaveLine> := [];
    var beginX := 0;
    while beginX < endX
      invariant 0 <= beginX <= endX
      invariant |lines| == beginX
      invariant forall i :: 0 <= i < beginX ==> lines[i] == FirstPassLine(width, color, i)
    {
      lines := lines + [WaveLine(beginX, beginX, AdjustAlpha(color, BackWaveFactor))];
      beginX := beginX + 1;
    }
    var wave2Shift := width / 4;
    beginX := 0;
    while beginX < endX
      invariant 0 <= beginX <= endX
      invariant |lines| == endX + beginX
      invariant forall i :: 0 <= i < endX ==> lines[i] == FirstPassLine(width, color, i)
      invariant forall i :: 0 <= i < beginX ==> lines[endX + i] == SecondPassLine(width, color, i)
    {
      lines := lines + [WaveLine(beginX, (beginX + wave2Shift) % endX, color)];
      beginX := beginX + 1;
    }
    t := Tile(width, height, height + 1, lines);
    assert lines == TileLines(width, color);
  }

  lemma {:induction false} MulAtLeast(d: int, n: int)
    requires d >= 1 && n > 0
    ensures d * n >= n
    decreases d
  {
    if d > 1 {
      MulAtLeast(d - 1, n);
      assert d * n == (d - 1) * n + n;
    }
  }

  /** Two decompositions q * n + r with 0 <= r < n of one number have the same quotient. */
  lemma QuotientUnique(n: int, q: int, r: int, q': int, r': int)
    requires n > 0 && 0 <= r < n && 0 <= r' < n && q * n + r == q' * n + r'
    ensures q == q' && r == r'
  {
    assert (q - q') * n == r' - r by {
      assert (q - q') * n == q * n - q' * n;
    }
    if q > q' {
      MulAtLeast(q - q', n);
    } else if q < q' {
      assert (q' - q) * n == r - r' by {
        assert (q' - q) * n == q' * n - q * n;
      }
      MulAtLeast(q' - q, n);
    }
  }

  /** a % n is the r of any decomposition a == q * n + r with 0 <= r < n. */
  lemma ModOfDecomposition(a: int, n: int, q: int, r: int)
    requires n > 0 && 0 <= r < n && a == q * n + r
    ensures a % n == r
  {
    QuotientUnique(n, q, r, a / n, a % n);
  }

  /** The second pass reads sample `s` at column (s - shift) mod (width + 1). */
  lemma SecondPassReadsEverySample(width: nat, s: nat)
    requires s < Columns(width)
    ensures var x := (s - SecondWaveShift(width)) % Columns(width);
      0 <= x < Columns(width) && SecondWaveSample(width, x) == s
  {
    var n := Columns(width);
    var k := SecondWaveShift(width);
    var x := (s - k) % n;
    var q := (s - k) / n;
    assert s - k == q * n + x;
    assert x + k == (-q) * n + s;
    ModOfDecomposition(x + k, n, -q, s);
  }

  /** Because the shift is less than the column count, the second pass wraps around at most once. */
  lemma SecondWaveSampleWrapsOnce(width: nat, x: nat)
    requires x < Columns(width)
    ensures x + SecondWaveShift(width) < Columns(width) ==> SecondWaveSample(width, x) == x + SecondWaveShift(width)
    ensures x + SecondWaveShift(width) >= Columns(width) ==> SecondWaveSample(width, x) == x + SecondWaveShift(width) - Columns(width)
  {
    var n := Columns(width);
    var k := SecondWaveShift(width);
    if x + k < n {
      ModOfDecomposition(x + k, n, 0, x + k);
    } else {
      ModOfDecomposition(x + k, n, 1, x + k - n);
    }
  }

  /** No two columns of the second pass read the same sample. */
  lemma SecondPassReadsEachSampleOnce(width: nat, x: nat, y: nat)
    requires x < Columns(width) && y < Columns(width)
    ensures SecondWaveSample(width, x) == SecondWaveSample(width, y) <==> x == y
  {
    SecondWaveSampleWrapsOnce(width, x);
    SecondWaveSampleWrapsOnce(width, y);
  }

}
